=== FILE: README.md ===
# Desktop announcement widget: a Dafny model of its window logic

The widget is a borderless WPF window that shows a countdown to (or count
since) a date read from `config.txt`, stays below every other window, and
remembers where the user dragged it. This project models the logic of its
main window (`MainWindow.xaml.cs`):

- **Midnight rescheduling** (`midnight.dfy`). The one-shot date timer is
  re-armed after every firing for "start of tomorrow minus now". A wait
  that is not in (0, 25 h] is replaced by one hour. So is the wait on
  9999/12/31, where `AddDays(1)` throws.
- **Day count and suffix** (`calendar.dfy`, `announcement.dfy`). Dates are
  proleptic Gregorian day numbers counted from 0001/01/01. The count is
  today's day number minus the target's. Its sign picks one of three
  suffixes.
- **Configuration record** (`config.dfy`, `retry.dfy`, `text.dfy`). The file
  checks run in source order: existence, the 10 KB ceiling, a read with up
  to three attempts, blank content, the first comma, a strict `yyyy/MM/dd`
  date, and a non-blank title cut to 100 characters. Every failure ends in
  the one fixed error display.
- **Window position** (`position.dfy`). A position is valid when at least
  half of the window's area lies on the virtual screen. It is loaded from a
  two-line file and saved as two `F0` lines with the same bounded retry.
- **Debounced saving** (`debounce.dfy`). Moves mark the position dirty and
  restart a one-second timer. A tick saves once. Closing stops the timer
  and saves if a change is pending.
- **Window level** (`windowlevel.dfy`). Desktop integration is tried once at
  load. Its boolean outcome is an input, because `IntegrateWithDesktop` is
  not part of this model. Failure pins the window to the bottom and starts
  the 10-second backstop timer. Activation re-pins in both modes.
- **The window as a whole** (`widget.dfy`). Construction, `Loaded`, the
  midnight tick and `OnClosed`.

Clock readings, the virtual-screen and work-area rectangles, the window
handle, file contents and the outcome of every file operation are
parameters. The model never reads them from the system.

Two behaviours of the code are easy to miss, and the model follows the code
in both:

- With a zero window handle, `MainWindow_Loaded` skips desktop integration
  and the initial pin, but still starts the backstop timer
  (MainWindow.xaml.cs:119-140).
- The doc comment of `ReadConfigFileWithRetry` promises empty text when
  reading fails (MainWindow.xaml.cs:256). In the code, the third
  `IOException` fails the `catch ... when (retryCount < maxRetries - 1)`
  filter (line 269) and escapes to `LoadConfiguration`'s exception
  handlers (lines 565-579: the `FileNotFoundException` one for a file that
  vanished, the `IOException` one otherwise). So `return string.Empty` (line 279) is never
  reached. `Retry.RetryLoop` shows this with `assert false` after its loop.

## Model

| member | source | states |
|---|---|---|
| Text.Trim | MainWindow.xaml.cs:538-547 | the result is the input with only white space removed from both ends; it has no white space at either end, and it is empty exactly when the input is all white space |
| Text.TrimKeepsNonWhiteSpace | MainWindow.xaml.cs:523-531 | trimming keeps every non-white-space character, so the content has a comma exactly when the raw text has one |
| Text.SplitFirst | MainWindow.xaml.cs:530-535 | splitting at the first comma gives a head with no comma and a tail that may hold more commas, and they rebuild the input; there is no split exactly when the input has no comma |
| Text.Truncate | MainWindow.xaml.cs:556-560 | the title is kept whole up to 100 characters, otherwise replaced by its 100-character prefix |
| Text.FormatInt | MainWindow.xaml.cs:401-405 | a position is written as a non-empty text that starts with '-' exactly when it is negative and is all digits otherwise |
| Text.ParseInt | MainWindow.xaml.cs:346-347 | only non-empty text is read as a number; a negative value needs a leading '-', unsigned text must be all digits, and any non-empty run of digits reads as a non-negative number |
| Text.FormatIntRoundTrip | MainWindow.xaml.cs:401-405 | an integer written with zero decimal places is read back as the same integer |
| Calendar.ParseDate | MainWindow.xaml.cs:537-544 | an accepted date is a real Gregorian date in years 1..9999 |
| Calendar.ParseFormatDate | MainWindow.xaml.cs:539-540 | the canonical `yyyy/MM/dd` spelling of every valid date is accepted and reads back as that date |
| Calendar.ParseDateStrict | MainWindow.xaml.cs:539-540 | the only text accepted for a date is its canonical spelling: four, two and two digits with '/' separators and nothing around them |
| Calendar.NextDay | MainWindow.xaml.cs:722 | the day after a valid date (other than 9999/12/31) is valid and later in calendar order |
| Calendar.DayNumberOrder | MainWindow.xaml.cs:602-604 | day numbers follow calendar order, and two valid dates share a day number only when they are equal |
| Calendar.NextDayNumber | MainWindow.xaml.cs:722 | moving to the next day adds exactly one to the day number, across month ends, year ends and leap days |
| Retry.Retried | MainWindow.xaml.cs:259-279 | at most three attempts; every attempt before the last failed with an `IOException`; the result is a value exactly when the last attempt succeeded; fewer than three attempts without success means a non-I/O exception escaped |
| Retry.RetryLoop | MainWindow.xaml.cs:257-280 | the loop as written has the same bounds and stopping rule and agrees with `Retried`; the code after the loop is unreachable |
| Retry.StopsAtFirstSuccess | MainWindow.xaml.cs:263-268 | if every attempt before attempt k failed with an `IOException` and attempt k succeeds, the loop returns attempt k's value after k attempts |
| Retry.GivesUpAfterThreeIoErrors | MainWindow.xaml.cs:269-279 | three `IOException`s in a row end the loop after three attempts with the exception escaping |
| Announcement.DaysPassed | MainWindow.xaml.cs:602-604 | the count is zero exactly on the target date, negative exactly before it and positive exactly after it |
| Announcement.Suffix | MainWindow.xaml.cs:617-629 | the suffix is always one of the three fixed texts |
| Announcement.AnnouncementDisplay | MainWindow.xaml.cs:596-629 | the normal display shows the loaded title and a count, and can never be mistaken for the error display |
| Announcement.SuffixFollowsCalendar | MainWindow.xaml.cs:602-629 | "就是今天！" exactly on the target date, "天後到來" exactly before it, "天" exactly after it |
| Announcement.DaysPassedAtMidnight | MainWindow.xaml.cs:600-604 | each midnight moves the count up by exactly one |
| Announcement.TargetDateExample | MainWindow.xaml.cs:602-629 | target 2024/01/10 gives 5 with "天" on 01/15, 0 with "就是今天！" on 01/10, and -5 with "天後到來" on 01/05 |
| Config.ParseContent | MainWindow.xaml.cs:523-560 | blank content is `ContentEmpty` and content without a comma is `NoSeparator` (both exactly); a success has a valid date whose canonical spelling is the trimmed text before the first comma, and a non-blank title of at most 100 characters that is a prefix of the trimmed text after that comma; whenever the text before the first comma is a date and the trimmed text after it is not blank, the result is that date with that text cut to 100 characters; `BadDate` exactly when there is a comma and the trimmed text before it is not a date; a blank title reports the date that was parsed |
| Config.ParseCanonicalRecord | MainWindow.xaml.cs:529-560 | a record written as `yyyy/MM/dd,title` parses back to itself, commas inside the title included |
| Config.ReadConfig | MainWindow.xaml.cs:501-527 | a missing file, a file over 10 KB, and a read whose exception escapes the retry each give their own error, exactly in those cases; a successful read of a file of at most 10 KB always gives the parse of the trimmed text that was read |
| Config.LoadConfiguration | MainWindow.xaml.cs:501-563 | the fixed error display appears exactly when loading fails; otherwise the display shows the loaded title, the day count and its suffix |
| Config.LoadCanonicalFile | MainWindow.xaml.cs:505-560 | a small file holding a canonical record that is read on the first attempt loads that record |
| Midnight.ClampInterval | MainWindow.xaml.cs:727-743 | the armed interval is in (0, 25 h]; it equals the computed wait when that is in range and is exactly one hour otherwise |
| Midnight.ComputeDelta | MainWindow.xaml.cs:719-725 | for a time of day in [0, 24 h) the wait to the next midnight is positive and at most one day |
| Midnight.DeltaReachesNextMidnight | MainWindow.xaml.cs:719-725 | now plus the computed wait is the start of the next calendar day |
| Midnight.NaturalDeltaInRange | MainWindow.xaml.cs:721-743 | for a time of day in [0, 24 h) the computed wait is in (0, 24 h], so the fallback is not used |
| Midnight.NextInterval | MainWindow.xaml.cs:711-782 | the interval is in (0, 25 h]; it wakes the timer exactly at the next midnight, except on 9999/12/31, where the one-hour fallback is used |
| Midnight.IntervalExamples | MainWindow.xaml.cs:721-743 | 23:59:50 arms 10 s; 00:00:01 arms 23 h 59 min 59 s; a wait of -5 min or of 26 h becomes one hour |
| Midnight.ScheduleStopsBeforeRetiming | MainWindow.xaml.cs:716-752 | a scheduling pass never changes the interval of a running timer: stop, set the interval, then start |
| Midnight.ScheduleNextMidnightUpdate | MainWindow.xaml.cs:711-766 | from any timer state the timer ends up running, with an interval in (0, 25 h] that reaches the next midnight; on 9999/12/31 the interval is exactly one hour |
| Position.IsPositionValid | MainWindow.xaml.cs:450-496 | a valid position needs a window of positive width and height with some of it on the screen |
| Position.Overlap | MainWindow.xaml.cs:465-472 | the visible extent on each axis is never longer than the window's or the screen's extent |
| Position.VisibleAreaAtMostTotal | MainWindow.xaml.cs:464-476 | the visible area never exceeds the window's area |
| Position.ValidityIsHalfRatio | MainWindow.xaml.cs:475-480 | the integer test `2 * visible >= total` with positive area agrees with the code's test `total > 0 && visible / total >= 0.5`, in exact arithmetic |
| Position.InsideScreenIsValid | MainWindow.xaml.cs:450-489 | a window of positive area lying wholly on the screen is valid |
| Position.OffScreenIsInvalid | MainWindow.xaml.cs:450-489 | a window entirely beside, above or below the screen is invalid |
| Position.ValidityIsTranslationInvariant | MainWindow.xaml.cs:455-480 | validity depends only on where the window is relative to the screen |
| Position.LoadWindowPosition | MainWindow.xaml.cs:327-388 | loads exactly when the file has two or more lines, both leading lines parse, and the position is valid; the loaded position is the stored one; otherwise Left/Top are unchanged |
| Position.BottomRight | MainWindow.xaml.cs:285-299 | the default places the window's right and bottom edges 20 pixels inside the work area's |
| Position.InitialPlacement | MainWindow.xaml.cs:107-111 | at load the stored position is used when it is valid, and the bottom-right default otherwise |
| Position.SaveWindowPosition | MainWindow.xaml.cs:393-445 | nothing is attempted exactly when Left or Top is NaN; otherwise the attempts follow the bounded retry exactly: one to three of them, every one before the last failed with an `IOException`, an `IOException` before the third is always retried, and giving up early means a non-I/O exception; the two lines are written exactly when the last attempt succeeded, and the lines written read back as the saved position |
| Position.SaveThenLoad | MainWindow.xaml.cs:346-405 | a saved position loads back exactly when it is valid for the window and screen at load time; an invalid one is refused even though the file is well formed |
| Debounce.Step | MainWindow.xaml.cs:217-247 | a save happens exactly on a timer tick, or on close, while a change is pending; a move leaves a change pending with the timer running; a tick clears both; a closed window ignores events |
| Debounce.StepKeepsCoherent | MainWindow.xaml.cs:217-247 | while open, a change is pending exactly when the timer runs; once closed, the timer is stopped |
| Debounce.RunKeepsCoherent | MainWindow.xaml.cs:217-247 | that invariant holds after any sequence of events |
| Debounce.BurstLeavesOnePending | MainWindow.xaml.cs:217-228 | a burst of moves of any length leaves one pending change and a running timer |
| Debounce.BurstThenTickSavesOnce | MainWindow.xaml.cs:217-247 | a burst of moves followed by one tick gives exactly one save, leaving nothing pending and the timer stopped |
| Debounce.IdleTickSavesNothing | MainWindow.xaml.cs:241-246 | a tick with nothing pending saves nothing |
| Debounce.CloseSavesIffPending | MainWindow.xaml.cs:809-821 | closing stops the timer and saves once exactly when a change is pending |
| Debounce.ClosedIgnoresEvents | MainWindow.xaml.cs:823-826 | after closing, no event changes anything |
| Debounce.SavesNeverExceedMoves | MainWindow.xaml.cs:217-247 | a run of events never makes more saves than it has moves, plus the one already owed |
| WindowLevel.PinToBottom | MainWindow.xaml.cs:672-705 | a pin is one native call when the handle is non-zero and nothing when it is zero; nothing else changes |
| WindowLevel.OnLoaded | MainWindow.xaml.cs:115-144 | desktop-child mode exactly when the handle is non-zero and integration succeeds; otherwise bottom-pinned with the backstop timer started; the one initial pin happens exactly after a failed integration |
| WindowLevel.Step | MainWindow.xaml.cs:105-178 | once chosen, the mode never changes; activation pins in every mode; a closed window ignores events |
| WindowLevel.LoadedOutcomes | MainWindow.xaml.cs:115-144 | integration succeeds: no timer and no pin; it fails: one pin and the timer; zero handle: the timer without a pin |
| WindowLevel.StepKeepsConsistent | MainWindow.xaml.cs:135-140 | the backstop runs exactly in bottom-pinned mode while the window is open |
| WindowLevel.ModeIsOneShot | MainWindow.xaml.cs:105-148 | after loading, no sequence of events changes the mode, so bottom-pinned never becomes desktop-child |
| WindowLevel.DesktopChildNeverStartsBackstop | MainWindow.xaml.cs:135-144 | after a successful integration the backstop never runs, and the only pins are those made on activation |
| WindowLevel.BackstopRepinsInFallback | MainWindow.xaml.cs:174-178 | in bottom-pinned mode every backstop tick with a handle re-pins the window |
| Widget.FieldsAfterLoad | MainWindow.xaml.cs:536-553 | on success the fields hold the record; on failure the title field is empty and the date field is a valid date: the parsed one when only the title was blank, 0001/01/01 otherwise |
| Widget.Construct | MainWindow.xaml.cs:63-96 | after construction the display is what loading the configuration shows: the error display exactly when loading failed, otherwise the countdown for the loaded record, whose date and title the fields then hold; the date timer is not yet armed |
| Widget.DateTickAsWritten | MainWindow.xaml.cs:153-160 | the tick as written always replaces the display with a countdown under the stored title, never the error display, whatever loading did; it re-arms the timer through the midnight scheduler, so it runs with an interval in (0, 25 h] that reaches the next midnight (one hour on 9999/12/31), and changes nothing else |
| Widget.ErrorDisplayLostAtMidnight | MainWindow.xaml.cs:153-160 | with config.txt missing, the first midnight replaces the error display with a count from 0001/01/01 under an empty title |
| Widget.DateTick | MainWindow.xaml.cs:153-160 | the corrected tick recomputes the display only when the configuration loaded, keeps it otherwise, and always re-arms the timer for the next midnight (one hour on 9999/12/31), with an interval in (0, 25 h]; nothing else changes |
| Widget.TickMatchesFreshLoad | MainWindow.xaml.cs:153-160 | a midnight tick shows exactly what loading the same file on that day would show |
| Widget.ErrorDisplayPersists | MainWindow.xaml.cs:651-659 | a configuration error stays on screen through any number of midnights, and the timer keeps running |
| Widget.OnLoaded | MainWindow.xaml.cs:105-148 | loading moves the window to the start-up placement, sets the window level as `WindowLevel.OnLoaded` says, and arms the date timer through the midnight scheduler, so it runs with an interval in (0, 25 h]; nothing else shown changes; a move leaves a debounced save pending with its timer running, no move leaves the saving state alone, and nothing is saved yet |
| Widget.OnClosed | MainWindow.xaml.cs:791-836 | closing stops all three timers, then saves once exactly when a position change is pending; the window stays where it is |

## Left out

- Single-instance takeover (App.xaml.cs): named mutex, process enumeration, graceful close and kill with timed waits. It is OS process management whose behaviour lives in foreign calls.
- NativeMethods.cs and Logger.cs: P/Invoke declarations, foreground-window helpers, and an append-only log sink. `IntegrateWithDesktop` is not part of this model; its result is a boolean input.
- Real I/O, WPF timers and the dispatcher, `SystemParameters`, `SetWindowPos` itself, and `DragMove` with its re-pin (`MainBorder_MouseLeftButtonDown`). Timer intervals (1000 ms debounce, 10 s backstop) are constants; elapsed time is not modelled, and each timer firing is an event.
- The 50 ms sleep between retry attempts.
- Clock reads (`DateTime.Now`, `DateTime.Today`). They are inputs, as local wall-clock values in milliseconds. `TimeSpan` holds 100 ns ticks, and wall-clock subtraction ignores daylight-saving offsets, as the code does.
- Number formatting (`N0` for the count, `F0` for positions, culture-specific signs). Positions are written as an optional '-' followed by decimal digits.
- Position.LoadWindowPosition: reads only the optional-sign integer form that the save writes. `double.TryParse` also accepts decimals, exponents, group separators, surrounding white space and "NaN"/"Infinity". Coordinates are whole pixels rather than doubles.
- Position.IsPositionValid's exception path, which returns false, and the centre-of-screen fallback in `SetWindowPositionToBottomRight`. Both are reached only when `SystemParameters` throws.
- Config.ReadConfig: the byte size and the decoded text are independent inputs. UTF-8 decoding and byte-order-mark handling are not modelled.
- Text.Truncate: `Substring(0, 100)` counts UTF-16 code units, while the model counts characters, so a title with characters outside the Basic Multilingual Plane is cut at a different place.
- Text.ParseInt: reads only an optional '-' followed by decimal digits. `double.TryParse` also accepts decimals, exponents, group separators, surrounding white space and "NaN"/"Infinity", so text such as "12.0", " 12" or "1e2" reads as a number in the code and as nothing here.
- `UpdateAnnouncementDisplay`'s null-control guard and its overflow/format handlers. Controls exist after `InitializeComponent`, and a count between two dates in 1..9999 fits an `int`.
- WindowLevel.Step: a repeated `Loaded` is ignored, because WPF raises it once for a window. A failed `SetWindowPos` is only logged, so the model counts calls, not successes.
- Debounce.Step: `saves` counts calls to `SaveWindowPosition`; what each call writes is `Position.SaveWindowPosition`.
- Widget.OnLoaded: setting `Left` and then `Top` may raise `LocationChanged` twice; the model applies one move, which leaves the same debounce state as two.
- Position.SaveThenLoad: a `WriteAllLines` that fails part way can leave a truncated or partial file; the model only reads back a write that succeeded, and takes a failed write to leave nothing it can predict.

## Findings

| source | as written | input that shows it | evidently intended | confidence | as-written member | corrected member |
|---|---|---|---|---|---|---|
| MainWindow.xaml.cs:153-160 | the midnight tick calls `UpdateAnnouncementDisplay` even when `LoadConfiguration` failed. That overwrites the fixed error display with a count since 0001/01/01 (the unassigned `_targetDate`) under an empty title | config.txt absent at start-up, then the first midnight tick (`Widget.ErrorDisplayLostAtMidnight`) | a configuration error stays on screen until the next start, because the fixed error display is the only failure surface (`Widget.ErrorDisplayPersists`) | medium; not executed | Widget.DateTickAsWritten | Widget.DateTick |

=== FILE: announcement.dfy ===
/** The three text fields the widget shows (`UpdateAnnouncementDisplay`,
    `SetErrorState`): a title, a day count and a suffix chosen by the sign
    of the count. */
module Announcement {
  import opened Calendar

  /** The middle text field: a day count (rendered with `N0`), or the
      error mark "!". */
  datatype DaysCell = Count(n: int) | Bang

  datatype Display = Display(title: string, days: DaysCell, suffix: string)

  const ErrorTitle: string := "設定錯誤"

  /** The fixed display of `SetErrorState`, whatever message it logs. */
  const ErrorDisplay: Display := Display(ErrorTitle, Bang, "")

  /** Suffix for a target date still ahead ("arrives in N days"). */
  const SuffixUpcoming: string := "天後到來"
  /** Suffix for the target date itself ("it is today!"). */
  const SuffixToday: string := "就是今天！"
  /** Suffix for a target date in the past ("days"). */
  const SuffixPassed: string := "天"

  /** Whole calendar days from `target` to `today`, both at midnight, so the
      count changes at local midnight and never with the time of day. */
  function DaysPassed(today: Date, target: Date): (n: int)
    requires ValidDate(today) && ValidDate(target)
    ensures n == 0 <==> today == target
    ensures n < 0 <==> Before(today, target)
    ensures n > 0 <==> Before(target, today)
  {
    DayNumberOrder(today, target);
    DayNumber(today) - DayNumber(target)
  }

  /** The suffix for a day count. */
  function Suffix(daysPassed: int): (s: string)
    ensures s in {SuffixUpcoming, SuffixToday, SuffixPassed}
  {
    if daysPassed < 0 then SuffixUpcoming
    else if daysPassed == 0 then SuffixToday
    else SuffixPassed
  }

  /** The normal display for a loaded title and target date. */
  function AnnouncementDisplay(title: string, target: Date, today: Date): (d: Display)
    requires ValidDate(today) && ValidDate(target)
    ensures d.title == title && d.days.Count?
    ensures d != ErrorDisplay
  {
    var n := DaysPassed(today, target);
    Display(title, Count(n), Suffix(n))
  }

  /** The suffix names the calendar relation between the two dates: "today"
      exactly on the target date, "arriving" exactly before it and "days"
      exactly after it. */
  lemma SuffixFollowsCalendar(today: Date, target: Date)
    requires ValidDate(today) && ValidDate(target)
    ensures Suffix(DaysPassed(today, target)) == SuffixToday <==> today == target
    ensures Suffix(DaysPassed(today, target)) == SuffixUpcoming <==> Before(today, target)
    ensures Suffix(DaysPassed(today, target)) == SuffixPassed <==> Before(target, today)
  {
    DayNumberOrder(today, target);
    DayNumberOrder(target, today);
  }

  /** Each midnight moves the count up by exactly one. */
  lemma DaysPassedAtMidnight(today: Date, target: Date)
    requires ValidDate(today) && ValidDate(target) && today != MaxDate
    ensures DaysPassed(NextDay(today), target) == DaysPassed(today, target) + 1
  {
    NextDayNumber(today);
  }

  /** The worked example: target 2024/01/10 seen on 01/15, 01/10 and 01/05. */
  lemma TargetDateExample()
    ensures var target := Date(2024, 1, 10);
      && AnnouncementDisplay("", target, Date(2024, 1, 15)).days == Count(5)
      && AnnouncementDisplay("", target, Date(2024, 1, 15)).suffix == SuffixPassed
      && AnnouncementDisplay("", target, Date(2024, 1, 10)).days == Count(0)
      && AnnouncementDisplay("", target, Date(2024, 1, 10)).suffix == SuffixToday
      && AnnouncementDisplay("", target, Date(2024, 1, 5)).days == Count(-5)
      && AnnouncementDisplay("", target, Date(2024, 1, 5)).suffix == SuffixUpcoming
  {
  }
}

=== FILE: calendar.dfy ===
/** Proleptic Gregorian calendar dates as `System.DateTime` holds them at
    midnight: years 1..9999, a day number counted from 0001/01/01, and the
    strict `yyyy/MM/dd` text form read from the configuration file. */
module Calendar {
  import opened Results
  import opened Text

  datatype Date = Date(year: int, month: int, day: int)

  /** `DateTime.MinValue.Date`, the value of an unassigned `DateTime` field. */
  const MinDate: Date := Date(1, 1, 1)

  /** `DateTime.MaxValue.Date`; adding a day to it throws. */
  const MaxDate: Date := Date(9999, 12, 31)

  predicate IsLeapYear(y: int) {
    y % 4 == 0 && (y % 100 != 0 || y % 400 == 0)
  }

  function DaysInYear(y: int): int {
    if IsLeapYear(y) then 366 else 365
  }

  function DaysInMonth(y: int, m: int): (n: int)
    requires 1 <= m <= 12
    ensures 28 <= n <= 31
  {
    if m == 2 then (if IsLeapYear(y) then 29 else 28)
    else if m == 4 || m == 6 || m == 9 || m == 11 then 30
    else 31
  }

  /** A date `DateTime` can represent. */
  predicate ValidDate(d: Date) {
    && 1 <= d.year <= 9999
    && 1 <= d.month <= 12
    && 1 <= d.day <= DaysInMonth(d.year, d.month)
  }

  /** Days in the years before `y`, counted from year 1. */
  function DaysBeforeYear(y: int): int
    requires y >= 1
  {
    if y == 1 then 0 else DaysBeforeYear(y - 1) + DaysInYear(y - 1)
  }

  /** Days in the months of year `y` before month `m` (`m == 13` gives the whole year). */
  function DaysBeforeMonth(y: int, m: int): int
    requires 1 <= m <= 13
  {
    var common :=
      if m == 1 then 0 else if m == 2 then 31 else if m == 3 then 59
      else if m == 4 then 90 else if m == 5 then 120 else if m == 6 then 151
      else if m == 7 then 181 else if m == 8 then 212 else if m == 9 then 243
      else if m == 10 then 273 else if m == 11 then 304 else if m == 12 then 334
      else 365;
    if m > 2 && IsLeapYear(y) then common + 1 else common
  }

  /** Whole days from 0001/01/01 to `d`: the `TotalDays` of `d - DateTime.MinValue`. */
  function DayNumber(d: Date): int
    requires ValidDate(d)
  {
    DaysBeforeYear(d.year) + DaysBeforeMonth(d.year, d.month) + d.day - 1
  }

  /** Calendar order: earlier year, or same year and earlier month, or same month and earlier day. */
  predicate Before(a: Date, b: Date) {
    || a.year < b.year
    || (a.year == b.year && a.month < b.month)
    || (a.year == b.year && a.month == b.month && a.day < b.day)
  }

  /** The following calendar day (`AddDays(1)`), defined by the month and year rules. */
  function NextDay(d: Date): (r: Date)
    requires ValidDate(d) && d != MaxDate
    ensures ValidDate(r) && Before(d, r)
  {
    if d.day < DaysInMonth(d.year, d.month) then Date(d.year, d.month, d.day + 1)
    else if d.month < 12 then Date(d.year, d.month + 1, 1)
    else Date(d.year + 1, 1, 1)
  }

  lemma MonthStep(y: int, m: int)
    requires 1 <= m <= 12
    ensures DaysBeforeMonth(y, m + 1) == DaysBeforeMonth(y, m) + DaysInMonth(y, m)
  {
  }

  /** The day number of a date lies inside its own year's range. */
  lemma DayNumberInYear(d: Date)
    requires ValidDate(d)
    ensures DaysBeforeYear(d.year) <= DayNumber(d) < DaysBeforeYear(d.year) + DaysInYear(d.year)
  {
    MonthStep(d.year, d.month);
    MonthsBefore(d.year, d.month + 1, 13);
  }

  lemma {:induction false} MonthsBefore(y: int, m1: int, m2: int)
    requires 1 <= m1 <= m2 <= 13
    ensures DaysBeforeMonth(y, m1) <= DaysBeforeMonth(y, m2)
  {
    if m1 < m2 {
      MonthStep(y, m2 - 1);
      MonthsBefore(y, m1, m2 - 1);
    }
  }

  lemma {:induction false} YearsBefore(y1: int, y2: int)
    requires 1 <= y1 < y2
    ensures DaysBeforeYear(y1) + DaysInYear(y1) <= DaysBeforeYear(y2)
  {
    if y1 + 1 < y2 {
      YearsBefore(y1, y2 - 1);
    }
  }

  /** Day numbers follow calendar order: an earlier date has a smaller day
      number, and two valid dates share a day number only when they are equal. */
  lemma DayNumberOrder(a: Date, b: Date)
    requires ValidDate(a) && ValidDate(b)
    ensures Before(a, b) <==> DayNumber(a) < DayNumber(b)
    ensures a == b <==> DayNumber(a) == DayNumber(b)
  {
    if Before(a, b) {
      DayNumberBefore(a, b);
    } else if Before(b, a) {
      DayNumberBefore(b, a);
    }
  }

  lemma DayNumberBefore(a: Date, b: Date)
    requires ValidDate(a) && ValidDate(b) && Before(a, b)
    ensures DayNumber(a) < DayNumber(b)
  {
    if a.year < b.year {
      DayNumberInYear(a);
      DayNumberInYear(b);
      YearsBefore(a.year, b.year);
    } else if a.month < b.month {
      MonthStep(a.year, a.month);
      MonthsBefore(a.year, a.month + 1, b.month);
    }
  }

  /** Moving to the next calendar day adds exactly one to the day number,
      across month ends, year ends and 29 February alike. */
  lemma NextDayNumber(d: Date)
    requires ValidDate(d) && d != MaxDate
    ensures DayNumber(NextDay(d)) == DayNumber(d) + 1
  {
    MonthStep(d.year, d.month);
  }

  // ---------------------------------------------------------------------
  // The `yyyy/MM/dd` text form

  /** `DateTime.TryParseExact(s, "yyyy/MM/dd", InvariantCulture, None)`:
      exactly four year digits, two month digits and two day digits separated
      by '/', with no surrounding white space, naming a real calendar date. */
  function ParseDate(s: string): (r: Option<Date>)
    ensures r.Some? ==> ValidDate(r.value)
  {
    if |s| == 10 && s[4] == '/' && s[7] == '/'
       && AllDigits(s[..4]) && AllDigits(s[5..7]) && AllDigits(s[8..])
    then
      var d := Date(DigitsValue(s[..4]), DigitsValue(s[5..7]), DigitsValue(s[8..]));
      if ValidDate(d) then Some(d) else None
    else None
  }

  /** The canonical `yyyy/MM/dd` spelling of a date. */
  function FormatDate(d: Date): (s: string)
    requires ValidDate(d)
    ensures |s| == 10
  {
    FixedDigits(d.year, 4) + "/" + FixedDigits(d.month, 2) + "/" + FixedDigits(d.day, 2)
  }

  /** The parser accepts the canonical spelling of every valid date and
      reads back that date. */
  lemma ParseFormatDate(d: Date)
    requires ValidDate(d)
    ensures ParseDate(FormatDate(d)) == Some(d)
  {
    var s := FormatDate(d);
    assert s[..4] == FixedDigits(d.year, 4);
    assert s[5..7] == FixedDigits(d.month, 2);
    assert s[8..] == FixedDigits(d.day, 2);
    FixedDigitsValue(d.year, 4);
    FixedDigitsValue(d.month, 2);
    FixedDigitsValue(d.day, 2);
  }

  /** The parser is strict: the only text it accepts for a date is that
      date's canonical spelling (no missing zero padding, no extra digits). */
  lemma ParseDateStrict(s: string)
    requires ParseDate(s).Some?
    ensures ValidDate(ParseDate(s).value) && FormatDate(ParseDate(s).value) == s
  {
    FixedDigitsOfValue(s[..4]);
    FixedDigitsOfValue(s[5..7]);
    FixedDigitsOfValue(s[8..]);
    assert s == s[..4] + "/" + s[5..7] + "/" + s[8..];
  }
}

=== FILE: config.dfy ===
/** `LoadConfiguration` and `ReadConfigFileWithRetry`: the one-line
    configuration record `yyyy/MM/dd,title` read from config.txt, with every
    failure ending in the fixed error display. */
module Config {
  import opened Results
  import opened Text
  import opened Calendar
  import opened Retry
  import opened Announcement

  /** The size ceiling on config.txt, in bytes (10 KB). */
  const MaxConfigSize: nat := 10 * 1024

  /** Titles longer than this are cut to their first `MaxTitleLength` characters. */
  const MaxTitleLength: nat := 100

  datatype Config = Config(target: Date, title: string)

  /** Why loading failed, one case per `SetErrorState` call. `TitleEmpty`
      records the date that had already been stored when the title was found empty. */
  datatype ConfigError =
    | FileMissing
    | FileTooLarge
    | ReadFailed
    | ContentEmpty
    | NoSeparator
    | BadDate
    | TitleEmpty(target: Date)

  /** What the file system holds: no file, or a file of `sizeBytes` bytes
      whose successive read attempts yield `attempts` (the decoded text, or an exception). */
  datatype ConfigFile = Absent | Present(sizeBytes: nat, attempts: seq<Attempt<string>>)

  /** Parsing of the trimmed file content: split at the first comma only,
      the trimmed left part a strict `yyyy/MM/dd` date, the trimmed right
      part a non-blank title kept to its first 100 characters. */
  function ParseContent(content: string): (r: Result<Config, ConfigError>)
    ensures r == Err(ContentEmpty) <==> AllWhiteSpace(content)
    ensures r == Err(NoSeparator) <==> !AllWhiteSpace(content) && ',' !in content
    ensures r.Ok? ==> ValidDate(r.value.target)
    ensures r.Err? && r.error.TitleEmpty? ==> ValidDate(r.error.target)
    ensures r == Err(BadDate) <==> && !AllWhiteSpace(content) && ',' in content
                                   && ParseDate(Trim(SplitFirst(content, ',').value.0)).None?
    ensures r.Err? && r.error.TitleEmpty? ==>
              && ',' in content
              && ParseDate(Trim(SplitFirst(content, ',').value.0)) == Some(r.error.target)
              && AllWhiteSpace(Trim(SplitFirst(content, ',').value.1))
    ensures r.Ok? ==> 0 < |r.value.title| <= MaxTitleLength && !IsWhiteSpace(r.value.title[0])
    ensures r.Ok? ==> exists head, tail ::
              && content == head + "," + tail && ',' !in head
              && Trim(head) == FormatDate(r.value.target)
              && r.value.title <= Trim(tail)
              && |r.value.title| == if |Trim(tail)| <= MaxTitleLength then |Trim(tail)| else MaxTitleLength
    ensures && !AllWhiteSpace(content) && ',' in content
            && ParseDate(Trim(SplitFirst(content, ',').value.0)).Some?
            && !AllWhiteSpace(Trim(SplitFirst(content, ',').value.1))
            ==> r == Ok(Config(ParseDate(Trim(SplitFirst(content, ',').value.0)).value,
                               Truncate(Trim(SplitFirst(content, ',').value.1), MaxTitleLength)))
  {
    if AllWhiteSpace(content) then Err(ContentEmpty)
    else match SplitFirst(content, ',')
      case None => Err(NoSeparator)
      case Some((head, tail)) =>
        match ParseDate(Trim(head))
        case None => Err(BadDate)
        case Some(target) =>
          var title := Trim(tail);
          if AllWhiteSpace(title) then Err(TitleEmpty(target))
          else
            ParseDateStrict(Trim(head));
            assert content == head + "," + tail;
            Ok(Config(target, Truncate(title, MaxTitleLength)))
  }

  /** Writing a record in its canonical form and parsing it gives the record
      back, commas inside the title included. */
  lemma ParseCanonicalRecord(c: Config)
    requires ValidDate(c.target)
    requires 0 < |c.title| <= MaxTitleLength
    requires !IsWhiteSpace(c.title[0]) && !IsWhiteSpace(c.title[|c.title| - 1])
    ensures ParseContent(FormatDate(c.target) + "," + c.title) == Ok(c)
  {
    var date := FormatDate(c.target);
    var content := date + "," + c.title;
    DateTextShape(c.target);
    assert !AllWhiteSpace(content) by { assert content[0] == date[0]; }
    SplitAtFirst(date, c.title, ',');
    TrimOfTrimmed(date);
    TrimOfTrimmed(c.title);
    ParseFormatDate(c.target);
  }

  /** The canonical date text holds no comma and no white space at its ends. */
  lemma DateTextShape(d: Date)
    requires ValidDate(d)
    ensures ',' !in FormatDate(d)
    ensures !IsWhiteSpace(FormatDate(d)[0]) && !IsWhiteSpace(FormatDate(d)[9])
  {
    var y, m, dd := FixedDigits(d.year, 4), FixedDigits(d.month, 2), FixedDigits(d.day, 2);
    var date := FormatDate(d);
    assert date == y + "/" + m + "/" + dd;
    forall k | 0 <= k < |date| ensures date[k] != ',' {
      if k < 4 { assert date[k] == y[k]; }
      else if k == 4 || k == 7 { }
      else if k < 7 { assert date[k] == m[k - 5]; }
      else { assert date[k] == dd[k - 8]; }
    }
    assert date[0] == y[0] && date[9] == dd[1];
  }

  /** Splitting `head + sep + tail` at the first `sep` gives back `head` and
      `tail` when `head` holds no `sep`. */
  lemma SplitAtFirst(head: string, tail: string, sep: char)
    requires sep !in head
    ensures SplitFirst(head + [sep] + tail, sep) == Some((head, tail))
  {
    var s := head + [sep] + tail;
    var r := SplitFirst(s, sep);
    assert s[|head|] == sep;
    var h := r.value.0;
    assert h == s[..|head|] == head;
    assert r.value.1 == s[|head| + 1..] == tail;
  }

  /** `LoadConfiguration` before display: the file checks in source order
      (existence, then size, then the retried read, then the content). An
      exception escaping the retry loop is caught and reported as `ReadFailed`. */
  function ReadConfig(file: ConfigFile): (r: Result<Config, ConfigError>)
    requires file.Present? ==> MaxAttempts <= |file.attempts|
    ensures r == Err(FileMissing) <==> file.Absent?
    ensures r == Err(FileTooLarge) <==> file.Present? && file.sizeBytes > MaxConfigSize
    ensures r == Err(ReadFailed) <==>
              file.Present? && file.sizeBytes <= MaxConfigSize && Retried(file.attempts).Escaped?
    ensures r.Ok? ==> ValidDate(r.value.target)
    ensures r.Err? && r.error.TitleEmpty? ==> ValidDate(r.error.target)
    ensures r.Ok? ==> file.Present? && Retried(file.attempts).Done?
    ensures file.Present? && file.sizeBytes <= MaxConfigSize && Retried(file.attempts).Done?
            ==> r == ParseContent(Trim(Retried(file.attempts).value))
  {
    match file
    case Absent => Err(FileMissing)
    case Present(size, attempts) =>
      if size > MaxConfigSize then Err(FileTooLarge)
      else match Retried(attempts)
        case Escaped(_) => Err(ReadFailed)
        case Done(text, _) => ParseContent(Trim(text))
  }

  /** The display left by `LoadConfiguration` (via `UpdateAnnouncementDisplay`
      on success, `SetErrorState` on any failure). */
  function LoadConfiguration(file: ConfigFile, today: Date): (d: Display)
    requires file.Present? ==> MaxAttempts <= |file.attempts|
    requires ValidDate(today)
    ensures d == ErrorDisplay <==> ReadConfig(file).Err?
    ensures ReadConfig(file).Ok? ==>
              var c := ReadConfig(file).value;
              d.title == c.title && d.days == Count(DaysPassed(today, c.target))
              && d.suffix == Suffix(DaysPassed(today, c.target))
  {
    match ReadConfig(file)
    case Err(_) => ErrorDisplay
    case Ok(c) => AnnouncementDisplay(c.title, c.target, today)
  }

  /** A file holding a canonical record, read successfully on its first
      attempt, loads that record. */
  lemma LoadCanonicalFile(c: Config, size: nat, rest: seq<Attempt<string>>)
    requires ValidDate(c.target)
    requires 0 < |c.title| <= MaxTitleLength
    requires !IsWhiteSpace(c.title[0]) && !IsWhiteSpace(c.title[|c.title| - 1])
    requires size <= MaxConfigSize && |rest| >= MaxAttempts - 1
    ensures ReadConfig(Present(size, [Succeeded(FormatDate(c.target) + "," + c.title)] + rest)) == Ok(c)
  {
    var text := FormatDate(c.target) + "," + c.title;
    DateTextShape(c.target);
    assert text[0] == FormatDate(c.target)[0];
    TrimOfTrimmed(text);
    ParseCanonicalRecord(c);
  }
}

=== FILE: debounce.dfy ===
/** The debounced position save: `MainWindow_LocationChanged` marks the
    position dirty and restarts a one-second timer, `SavePositionDebounceTimer_Tick`
    stops the timer and saves once if something is pending, and `OnClosed`
    stops the timer and makes one final save if a change is still pending. */
module Debounce {

  /** `_hasPositionChanged`, whether the debounce timer runs, whether the
      window has closed (its handlers unsubscribed), and how many times
      `SaveWindowPosition` has been called. */
  datatype Debounce = Debounce(pending: bool, timerRunning: bool, closed: bool, saves: nat)

  datatype Event = LocationChanged | DebounceTick | Close

  /** One event. A tick is delivered only by a running timer, and nothing
      reaches a closed window. */
  function Step(s: Debounce, e: Event): (r: Debounce)
    ensures s.closed ==> r == s
    ensures r.saves == (if !s.closed && s.pending && ((e == DebounceTick && s.timerRunning) || e == Close)
                        then s.saves + 1 else s.saves)
    ensures !s.closed && e == LocationChanged ==> r.pending && r.timerRunning
    ensures !s.closed && e == DebounceTick && s.timerRunning ==> !r.pending && !r.timerRunning
    ensures !s.closed && e == Close ==> r.closed && !r.timerRunning && r.pending == s.pending
  {
    if s.closed then s
    else match e
      case LocationChanged =>
        s.(pending := true, timerRunning := true)
      case DebounceTick =>
        if !s.timerRunning then s
        else if s.pending then s.(timerRunning := false, pending := false, saves := s.saves + 1)
        else s.(timerRunning := false)
      case Close =>
        s.(timerRunning := false, closed := true, saves := if s.pending then s.saves + 1 else s.saves)
  }

  function Run(s: Debounce, events: seq<Event>): Debounce
    decreases |events|
  {
    if |events| == 0 then s else Run(Step(s, events[0]), events[1..])
  }

  /** While the window is open, a change is pending exactly when the timer
      runs; once closed, the timer is stopped. */
  predicate Coherent(s: Debounce) {
    && (!s.closed ==> (s.pending <==> s.timerRunning))
    && (s.closed ==> !s.timerRunning)
  }

  lemma StepKeepsCoherent(s: Debounce, e: Event)
    requires Coherent(s)
    ensures Coherent(Step(s, e))
  {
  }

  lemma {:induction false} RunKeepsCoherent(s: Debounce, events: seq<Event>)
    requires Coherent(s)
    ensures Coherent(Run(s, events))
    decreases |events|
  {
    if |events| > 0 {
      StepKeepsCoherent(s, events[0]);
      RunKeepsCoherent(Step(s, events[0]), events[1..]);
    }
  }

  lemma {:induction false} RunAppend(s: Debounce, a: seq<Event>, b: seq<Event>)
    ensures Run(s, a + b) == Run(Run(s, a), b)
    decreases |a|
  {
    if |a| == 0 {
      assert a + b == b;
    } else {
      assert (a + b)[1..] == a[1..] + b;
      RunAppend(Step(s, a[0]), a[1..], b);
    }
  }

  function Moves(n: nat): (m: seq<Event>)
    ensures |m| == n && forall k :: 0 <= k < n ==> m[k] == LocationChanged
  {
    seq(n, _ => LocationChanged)
  }

  /** A burst of moves leaves one pending change and a running timer, however long the burst. */
  lemma {:induction false} BurstLeavesOnePending(s: Debounce, n: nat)
    requires !s.closed && n >= 1
    ensures Run(s, Moves(n)) == s.(pending := true, timerRunning := true)
    decreases n
  {
    var s1 := Step(s, LocationChanged);
    if n == 1 {
      assert Moves(1)[1..] == [];
    } else {
      assert Moves(n)[1..] == Moves(n - 1);
      BurstLeavesOnePending(s1, n - 1);
    }
  }

  /** Any burst of moves followed by one debounce tick gives exactly one save,
      with nothing left pending and the timer stopped. */
  lemma BurstThenTickSavesOnce(s: Debounce, n: nat)
    requires !s.closed && n >= 1
    ensures Run(s, Moves(n) + [DebounceTick]) == s.(pending := false, timerRunning := false, saves := s.saves + 1)
  {
    RunAppend(s, Moves(n), [DebounceTick]);
    BurstLeavesOnePending(s, n);
  }

  /** A tick with nothing pending saves nothing. */
  lemma IdleTickSavesNothing(s: Debounce)
    requires !s.pending
    ensures Step(s, DebounceTick).saves == s.saves
  {
  }

  /** Closing stops the timer and saves once exactly when a change is pending. */
  lemma CloseSavesIffPending(s: Debounce)
    requires !s.closed
    ensures Step(s, Close).saves == if s.pending then s.saves + 1 else s.saves
    ensures !Step(s, Close).timerRunning
  {
  }

  /** After closing, no event changes anything (the handlers are unsubscribed). */
  lemma {:induction false} ClosedIgnoresEvents(s: Debounce, events: seq<Event>)
    requires s.closed
    ensures Run(s, events) == s
    decreases |events|
  {
    if |events| > 0 {
      ClosedIgnoresEvents(Step(s, events[0]), events[1..]);
    }
  }

  function CountMoves(events: seq<Event>): nat
    decreases |events|
  {
    if |events| == 0 then 0
    else (if events[0] == LocationChanged then 1 else 0) + CountMoves(events[1..])
  }

  /** Saves plus the one still owed for a pending change. */
  function Owed(s: Debounce): nat {
    s.saves + if s.pending && !s.closed then 1 else 0
  }

  /** Coalescing: a run of events never makes more saves than it has moves,
      beyond the one already pending when it starts. */
  lemma {:induction false} SavesNeverExceedMoves(s: Debounce, events: seq<Event>)
    requires Coherent(s)
    ensures Run(s, events).saves <= Owed(s) + CountMoves(events)
    ensures Owed(Run(s, events)) <= Owed(s) + CountMoves(events)
    decreases |events|
  {
    if |events| > 0 {
      StepKeepsCoherent(s, events[0]);
      SavesNeverExceedMoves(Step(s, events[0]), events[1..]);
    }
  }
}

=== FILE: midnight.dfy ===
/** `ScheduleNextMidnightUpdate`: a one-shot date timer re-armed after
    every firing for the next local midnight, with a one-hour fallback when
    the computed wait is not in (0, 25 h]. Times are local wall-clock
    milliseconds. */
module Midnight {
  import opened Calendar

  const HourMs: int := 3_600_000
  const DayMs: int := 24 * HourMs
  /** The largest wait accepted (`TotalHours > 25` is rejected). */
  const MaxIntervalMs: int := 25 * HourMs
  /** `TimeSpan.FromHours(1)`, used whenever the computed wait is rejected. */
  const FallbackMs: int := HourMs

  /** A local `DateTime`: a calendar date and the time elapsed since its midnight. */
  datatype LocalTime = LocalTime(date: Date, timeOfDayMs: int)

  predicate ValidTime(t: LocalTime) {
    ValidDate(t.date) && 0 <= t.timeOfDayMs < DayMs
  }

  /** Milliseconds from 0001/01/01 00:00 to `t`, on the local wall clock. */
  function InstantMs(t: LocalTime): int
    requires ValidTime(t)
  {
    DayNumber(t.date) * DayMs + t.timeOfDayMs
  }

  /** The instant at which date `d` begins. */
  function MidnightMs(d: Date): int
    requires ValidDate(d)
  {
    DayNumber(d) * DayMs
  }

  /** `now.Date.AddDays(1) - now`, for a time of day in milliseconds. */
  function ComputeDelta(timeOfDayMs: int): (delta: int)
    ensures 0 <= timeOfDayMs < DayMs ==> 0 < delta <= DayMs
  {
    DayMs - timeOfDayMs
  }

  /** The computed wait is the distance from `now` to the start of the next
      calendar day. */
  lemma DeltaReachesNextMidnight(now: LocalTime)
    requires ValidTime(now) && now.date != MaxDate
    ensures InstantMs(now) + ComputeDelta(now.timeOfDayMs) == MidnightMs(NextDay(now.date))
  {
    NextDayNumber(now.date);
    assert (DayNumber(now.date) + 1) * DayMs == DayNumber(now.date) * DayMs + DayMs;
  }

  /** For any real time of day the computed wait already lies in (0, 24 h],
      so the fallback never replaces it; it guards only against anomalous values. */
  lemma NaturalDeltaInRange(timeOfDayMs: int)
    requires 0 <= timeOfDayMs < DayMs
    ensures 0 < ComputeDelta(timeOfDayMs) <= DayMs
    ensures ClampInterval(ComputeDelta(timeOfDayMs)) == ComputeDelta(timeOfDayMs)
  {
  }

  /** The defensive check: a wait of zero or less, or over 25 hours, becomes
      one hour; anything else is kept. */
  function ClampInterval(deltaMs: int): (r: int)
    ensures 0 < r <= MaxIntervalMs
    ensures 0 < deltaMs <= MaxIntervalMs ==> r == deltaMs
    ensures deltaMs <= 0 || deltaMs > MaxIntervalMs ==> r == FallbackMs
  {
    if deltaMs <= 0 then FallbackMs
    else if deltaMs > MaxIntervalMs then FallbackMs
    else deltaMs
  }

  /** The interval armed at local time `now`. On 9999/12/31 `AddDays(1)`
      throws `ArgumentOutOfRangeException`, whose handler arms the fallback. */
  function NextInterval(now: LocalTime): (r: int)
    requires ValidTime(now)
    ensures 0 < r <= MaxIntervalMs
    ensures now.date != MaxDate ==> InstantMs(now) + r == MidnightMs(NextDay(now.date))
    ensures now.date == MaxDate ==> r == FallbackMs
  {
    if now.date == MaxDate then FallbackMs
    else
      DeltaReachesNextMidnight(now);
      ClampInterval(ComputeDelta(now.timeOfDayMs))
  }

  /** Waits at two times of day, and the fallback for two anomalous deltas. */
  lemma IntervalExamples(d: Date)
    requires ValidDate(d) && d != MaxDate
    ensures NextInterval(LocalTime(d, 23 * HourMs + 59 * 60_000 + 50_000)) == 10_000
    ensures NextInterval(LocalTime(d, 1_000)) == 23 * HourMs + 59 * 60_000 + 59_000
    ensures ClampInterval(-5 * 60_000) == FallbackMs
    ensures ClampInterval(26 * HourMs) == FallbackMs
  {
  }

  // ---------------------------------------------------------------------
  // The date timer

  /** A `DispatcherTimer`: whether it is running and its interval. */
  datatype DateTimer = DateTimer(running: bool, intervalMs: int)

  datatype TimerOp = Stop | SetInterval(ms: int) | Start

  function Apply(t: DateTimer, op: TimerOp): DateTimer {
    match op
    case Stop => t.(running := false)
    case SetInterval(ms) => t.(intervalMs := ms)
    case Start => t.(running := true)
  }

  function ApplyAll(t: DateTimer, ops: seq<TimerOp>): DateTimer
    decreases |ops|
  {
    if |ops| == 0 then t else ApplyAll(Apply(t, ops[0]), ops[1..])
  }

  /** No operation in `ops` changes the interval of a running timer. */
  predicate RetimedOnlyWhenStopped(t: DateTimer, ops: seq<TimerOp>)
    decreases |ops|
  {
    |ops| == 0 || ((ops[0].SetInterval? ==> !t.running) && RetimedOnlyWhenStopped(Apply(t, ops[0]), ops[1..]))
  }

  /** The timer calls one scheduling pass makes: stop, set the interval, start. */
  function ScheduleOps(now: LocalTime): seq<TimerOp>
    requires ValidTime(now)
  {
    [Stop, SetInterval(NextInterval(now)), Start]
  }

  /** Whatever state the timer is in, a scheduling pass never changes the
      interval while it runs: the stop comes first. */
  lemma ScheduleStopsBeforeRetiming(t: DateTimer, now: LocalTime)
    requires ValidTime(now)
    ensures RetimedOnlyWhenStopped(t, ScheduleOps(now))
  {
    var ops := ScheduleOps(now);
    var t1 := Apply(t, Stop);
    assert ops[1..][1..][1..] == [];
    assert RetimedOnlyWhenStopped(Apply(t1, ops[1]), ops[1..][1..]);
  }

  /** One scheduling pass from any timer state: the timer ends up running,
      armed for the next midnight or for the fallback. */
  function ScheduleNextMidnightUpdate(t: DateTimer, now: LocalTime): (r: DateTimer)
    requires ValidTime(now)
    ensures r.running
    ensures 0 < r.intervalMs <= MaxIntervalMs
    ensures now.date != MaxDate ==> InstantMs(now) + r.intervalMs == MidnightMs(NextDay(now.date))
    ensures now.date == MaxDate ==> r.intervalMs == FallbackMs
  {
    var ops := ScheduleOps(now);
    var t1 := Apply(t, Stop);
    var t2 := Apply(t1, SetInterval(NextInterval(now)));
    var t3 := Apply(t2, Start);
    assert ApplyAll(t3, ops[1..][1..][1..]) == t3;
    assert ApplyAll(t1, ops[1..]) == ApplyAll(t2, ops[1..][1..]) == ApplyAll(t3, ops[1..][1..][1..]);
    ApplyAll(t, ops)
  }
}

=== FILE: position.dfy ===
/** The remembered window position: `IsPositionValid` (at least half of the
    window's area on the virtual screen), `LoadWindowPosition` (a two-line
    file read once at start-up, never raising) and `SaveWindowPosition`
    (two `F0` lines, written with the bounded retry). Coordinates are whole
    device-independent pixels. */
module Position {
  import opened Results
  import opened Text
  import opened Retry

  /** A rectangle given by its top-left corner and size: the virtual screen
      (the bounding box of all monitors) or the work area. */
  datatype Rect = Rect(left: int, top: int, width: int, height: int)

  /** The window's `Left` and `Top`. */
  datatype Placement = Placement(left: int, top: int)

  function Max(a: int, b: int): int { if a >= b then a else b }
  function Min(a: int, b: int): int { if a <= b then a else b }

  /** Length of the overlap of the intervals [a0, a1) and [b0, b1); zero when
      they do not meet (`Math.Max(0, visibleRight - visibleLeft)`). */
  function Overlap(a0: int, a1: int, b0: int, b1: int): (n: nat)
    ensures a0 <= a1 ==> n <= a1 - a0
    ensures b0 <= b1 ==> n <= b1 - b0
  {
    Max(0, Min(a1, b1) - Max(a0, b0))
  }

  /** Area of the part of a `width` by `height` window at `p` that lies on the screen. */
  function VisibleArea(p: Placement, width: nat, height: nat, screen: Rect): nat {
    Overlap(p.left, p.left + width, screen.left, screen.left + screen.width)
    * Overlap(p.top, p.top + height, screen.top, screen.top + screen.height)
  }

  /** The rule of `IsPositionValid`: the window has positive area and at least
      half of it is on the virtual screen. */
  predicate IsPositionValid(p: Placement, width: nat, height: nat, screen: Rect)
    ensures IsPositionValid(p, width, height, screen) ==>
              width > 0 && height > 0 && VisibleArea(p, width, height, screen) > 0
  {
    width * height > 0 && 2 * VisibleArea(p, width, height, screen) >= width * height
  }

  lemma MulMono(a: nat, b: nat, c: nat, d: nat)
    requires a <= c && b <= d
    ensures a * b <= c * d
  {
    assert a * b <= c * b;
    assert c * b <= c * d;
  }

  /** The visible area never exceeds the window's own area. */
  lemma VisibleAreaAtMostTotal(p: Placement, width: nat, height: nat, screen: Rect)
    ensures VisibleArea(p, width, height, screen) <= width * height
  {
    MulMono(Overlap(p.left, p.left + width, screen.left, screen.left + screen.width),
            Overlap(p.top, p.top + height, screen.top, screen.top + screen.height),
            width, height);
  }

  /** The integer rule agrees with the program's ratio test
      `totalArea > 0 && visibleArea / totalArea >= 0.5`, computed exactly. */
  lemma ValidityIsHalfRatio(p: Placement, width: nat, height: nat, screen: Rect)
    ensures IsPositionValid(p, width, height, screen) <==>
            width * height > 0
            && (VisibleArea(p, width, height, screen) as real) / ((width * height) as real) >= 0.5
  {
    var a := VisibleArea(p, width, height, screen);
    var t := width * height;
    if t > 0 {
      HalfRatio(a as real, t as real);
      assert (2 * a >= t) <==> (2.0 * (a as real) >= t as real);
    }
  }

  lemma HalfRatio(v: real, t: real)
    requires t > 0.0
    ensures v / t >= 0.5 <==> 2.0 * v >= t
  {
    var q := v / t;
    assert q * t == v;
    if q >= 0.5 {
      assert q * t >= 0.5 * t;
    } else {
      assert q * t < 0.5 * t;
    }
  }

  /** A window of positive area lying wholly on the screen is valid. */
  lemma InsideScreenIsValid(p: Placement, width: nat, height: nat, screen: Rect)
    requires width * height > 0
    requires screen.left <= p.left && p.left + width <= screen.left + screen.width
    requires screen.top <= p.top && p.top + height <= screen.top + screen.height
    ensures IsPositionValid(p, width, height, screen)
  {
    assert VisibleArea(p, width, height, screen) == width * height;
  }

  /** A window entirely beside, above or below the screen is invalid. */
  lemma OffScreenIsInvalid(p: Placement, width: nat, height: nat, screen: Rect)
    requires || p.left + width <= screen.left || screen.left + screen.width <= p.left
             || p.top + height <= screen.top || screen.top + screen.height <= p.top
    ensures !IsPositionValid(p, width, height, screen)
  {
  }

  /** Validity depends only on where the window is relative to the screen. */
  lemma ValidityIsTranslationInvariant(p: Placement, width: nat, height: nat, screen: Rect, dx: int, dy: int)
    ensures IsPositionValid(p, width, height, screen) <==>
            IsPositionValid(Placement(p.left + dx, p.top + dy), width, height,
                            Rect(screen.left + dx, screen.top + dy, screen.width, screen.height))
  {
  }

  // ---------------------------------------------------------------------
  // Loading

  /** position.txt as `File.ReadAllLines` sees it: absent, unreadable (an
      access or I/O exception), or its lines. */
  datatype PositionFile = NoFile | Unreadable | Lines(lines: seq<string>)

  /** `LoadWindowPosition`'s boolean result and the window's `Left`/`Top` afterwards. */
  datatype LoadResult = LoadResult(loaded: bool, placement: Placement)

  /** The stored position the file holds, if its first two lines are numbers. */
  function StoredPlacement(file: PositionFile): Option<Placement> {
    if file.Lines? && |file.lines| >= 2
       && ParseInt(file.lines[0]).Some? && ParseInt(file.lines[1]).Some?
    then Some(Placement(ParseInt(file.lines[0]).value, ParseInt(file.lines[1]).value))
    else None
  }

  /** Restores the stored position only when the file has at least two lines
      (lines after the second are ignored), both parse as numbers, and the
      position passes the validity rule; otherwise reports failure and leaves
      `Left`/`Top` as they were. No input makes it raise. */
  function LoadWindowPosition(file: PositionFile, current: Placement, width: nat, height: nat,
                              screen: Rect): (r: LoadResult)
    ensures !r.loaded ==> r.placement == current
    ensures r.loaded <==> StoredPlacement(file).Some?
                          && IsPositionValid(StoredPlacement(file).value, width, height, screen)
    ensures r.loaded ==> r.placement == StoredPlacement(file).value
  {
    match file
    case NoFile => LoadResult(false, current)
    case Unreadable => LoadResult(false, current)
    case Lines(lines) =>
      if |lines| < 2 then LoadResult(false, current)
      else match (ParseInt(lines[0]), ParseInt(lines[1]))
        case (Some(left), Some(top)) =>
          if IsPositionValid(Placement(left, top), width, height, screen)
          then LoadResult(true, Placement(left, top))
          else LoadResult(false, current)
        case _ => LoadResult(false, current)
  }

  /** Distance kept from the work area's right and bottom edges by the default placement. */
  const Margin: int := 20

  /** `SetWindowPositionToBottomRight`: the window's right and bottom edges sit
      `Margin` pixels inside the work area's. */
  function BottomRight(workArea: Rect, width: nat, height: nat): (p: Placement)
    ensures p.left + width + Margin == workArea.left + workArea.width
    ensures p.top + height + Margin == workArea.top + workArea.height
  {
    Placement(workArea.left + workArea.width - width - Margin,
              workArea.top + workArea.height - height - Margin)
  }

  /** The start-up placement chosen in `MainWindow_Loaded`: the stored one
      when it loads, the bottom-right default otherwise. */
  function InitialPlacement(file: PositionFile, current: Placement, width: nat, height: nat,
                            screen: Rect, workArea: Rect): (p: Placement)
    ensures StoredPlacement(file).Some? && IsPositionValid(StoredPlacement(file).value, width, height, screen)
            ==> p == StoredPlacement(file).value
    ensures !(StoredPlacement(file).Some? && IsPositionValid(StoredPlacement(file).value, width, height, screen))
            ==> p == BottomRight(workArea, width, height)
  {
    var r := LoadWindowPosition(file, current, width, height, screen);
    if r.loaded then r.placement else BottomRight(workArea, width, height)
  }

  // ---------------------------------------------------------------------
  // Saving

  /** A `double` coordinate: a whole pixel value, or NaN (never assigned). */
  datatype Coord = Px(v: int) | NaN

  /** What `SaveWindowPosition` did: nothing (a NaN coordinate), wrote the
      two lines after `attempts` calls, or gave up after `attempts` calls
      (an exception escaped the retry loop and was only logged). */
  datatype SaveOutcome = Skipped | Written(lines: seq<string>, attempts: nat) | Dropped(attempts: nat)

  /** `SaveWindowPosition`, with `writes` the outcomes of successive
      `File.WriteAllLines` calls. */
  function SaveWindowPosition(left: Coord, top: Coord, writes: seq<Attempt<()>>): (r: SaveOutcome)
    requires MaxAttempts <= |writes|
    ensures r.Skipped? <==> left.NaN? || top.NaN?
    ensures r.Written? ==> r.lines == [FormatInt(left.v), FormatInt(top.v)]
    ensures r.Written? ==> StoredPlacement(Lines(r.lines)) == Some(Placement(left.v, top.v))
    ensures !r.Skipped? ==> 1 <= r.attempts <= MaxAttempts && IoFailuresBefore(writes, r.attempts - 1)
    ensures r.Written? <==> !r.Skipped? && writes[r.attempts - 1].Succeeded?
    ensures r.Dropped? && r.attempts < MaxAttempts ==> writes[r.attempts - 1].OtherError?
    ensures !r.Skipped? ==> r.attempts == Retried(writes).attempts
  {
    if left.NaN? || top.NaN? then Skipped
    else
      FormatIntRoundTrip(left.v);
      FormatIntRoundTrip(top.v);
      match Retried(writes)
      case Done(_, n) => Written([FormatInt(left.v), FormatInt(top.v)], n)
      case Escaped(n) => Dropped(n)
  }

  /** Save then load: a position that was written comes back exactly when it
      is valid for the window and screen at load time; an invalid one is
      refused although the file is well formed. */
  lemma SaveThenLoad(p: Placement, writes: seq<Attempt<()>>,
                     current: Placement, width: nat, height: nat, screen: Rect)
    requires MaxAttempts <= |writes|
    requires SaveWindowPosition(Px(p.left), Px(p.top), writes).Written?
    ensures var stored := Lines(SaveWindowPosition(Px(p.left), Px(p.top), writes).lines);
            LoadWindowPosition(stored, current, width, height, screen)
            == if IsPositionValid(p, width, height, screen) then LoadResult(true, p) else LoadResult(false, current)
  {
    FormatIntRoundTrip(p.left);
    FormatIntRoundTrip(p.top);
  }
}

=== FILE: results.dfy ===
/** Success/failure carriers used where the program either produces a value
    or falls back to a defined alternative (a missing file, a failed parse). */
module Results {

  datatype Option<+T> = None | Some(value: T)

  datatype Result<+T, +E> = Ok(value: T) | Err(error: E)
}

=== FILE: retry.dfy ===
/** The bounded retry loop shared by `ReadConfigFileWithRetry` and
    `SaveWindowPosition`: up to three attempts, a retry only after an
    `IOException` (the `when (retryCount < maxRetries - 1)` filter), and any
    other exception, or an `IOException` on the last attempt, escaping to the
    caller's handlers. The 50 ms sleep between attempts is not modelled. */
module Retry {

  const MaxAttempts: nat := 3

  /** What one attempt of the file operation does. `IoError` stands for
      `IOException` and its subclasses (`FileNotFoundException`,
      `DirectoryNotFoundException`, sharing violations); `OtherError` for any
      other exception, such as `UnauthorizedAccessException`. */
  datatype Attempt<+T> = Succeeded(value: T) | IoError | OtherError

  /** How the loop ends: with the operation's value, or with an exception
      escaping it; `attempts` counts the calls made. */
  datatype RetryResult<+T> = Done(value: T, attempts: nat) | Escaped(attempts: nat)

  /** Every attempt before index `n` failed with an `IOException`. */
  predicate IoFailuresBefore<T>(outcomes: seq<Attempt<T>>, n: nat)
    requires n <= |outcomes|
  {
    forall j :: 0 <= j < n ==> outcomes[j].IoError?
  }

  /** The loop's result for `outcomes`, the answers the file system gives to
      the first, second and third attempt (later entries are never consulted). */
  function Retried<T>(outcomes: seq<Attempt<T>>, from: nat := 0): (r: RetryResult<T>)
    requires from < MaxAttempts <= |outcomes|
    requires IoFailuresBefore(outcomes, from)
    ensures from < r.attempts <= MaxAttempts
    ensures IoFailuresBefore(outcomes, r.attempts - 1)
    ensures r.Done? <==> outcomes[r.attempts - 1].Succeeded?
    ensures r.Done? ==> r.value == outcomes[r.attempts - 1].value
    ensures r.Escaped? && r.attempts < MaxAttempts ==> outcomes[r.attempts - 1].OtherError?
    decreases MaxAttempts - from
  {
    match outcomes[from]
    case Succeeded(v) => Done(v, from + 1)
    case OtherError => Escaped(from + 1)
    case IoError => if from < MaxAttempts - 1 then Retried(outcomes, from + 1) else Escaped(from + 1)
  }

  /** The loop as written, with `retryCount` counting failed attempts. The
      statement after the loop (`return string.Empty` in the reader) is never
      reached: the third `IOException` fails the filter and escapes instead. */
  method RetryLoop<T>(outcomes: seq<Attempt<T>>) returns (r: RetryResult<T>)
    requires MaxAttempts <= |outcomes|
    ensures 1 <= r.attempts <= MaxAttempts
    ensures IoFailuresBefore(outcomes, r.attempts - 1)
    ensures r.Done? <==> outcomes[r.attempts - 1].Succeeded?
    ensures r.Done? ==> r.value == outcomes[r.attempts - 1].value
    ensures r.Escaped? && r.attempts < MaxAttempts ==> outcomes[r.attempts - 1].OtherError?
    ensures r == Retried(outcomes)
  {
    var retryCount := 0;
    while retryCount < MaxAttempts
      invariant 0 <= retryCount < MaxAttempts
      invariant IoFailuresBefore(outcomes, retryCount)
      invariant Retried(outcomes, retryCount) == Retried(outcomes)
      decreases MaxAttempts - retryCount
    {
      match outcomes[retryCount]
      case Succeeded(v) =>
        return Done(v, retryCount + 1);
      case OtherError =>
        return Escaped(retryCount + 1);
      case IoError =>
        if retryCount < MaxAttempts - 1 {
          retryCount := retryCount + 1;
        } else {
          return Escaped(retryCount + 1);
        }
    }
    assert false;
  }

  /** The loop stops at the first success: later answers are never asked for. */
  lemma StopsAtFirstSuccess<T>(outcomes: seq<Attempt<T>>, k: nat)
    requires MaxAttempts <= |outcomes| && k < MaxAttempts
    requires IoFailuresBefore(outcomes, k) && outcomes[k].Succeeded?
    ensures Retried(outcomes) == Done(outcomes[k].value, k + 1)
  {
  }

  /** Three `IOException`s in a row: three attempts, then the exception escapes. */
  lemma GivesUpAfterThreeIoErrors<T>(outcomes: seq<Attempt<T>>)
    requires MaxAttempts <= |outcomes| && IoFailuresBefore(outcomes, MaxAttempts)
    ensures Retried(outcomes) == Escaped(MaxAttempts)
  {
  }
}

=== FILE: text.dfy ===
/** Character-level helpers behind the program's text handling: .NET's
    `String.Trim`, `String.Split(sep, 2)`, `Substring(0, n)`, and the
    decimal digit strings written and read for dates and pixel positions. */
module Text {
  import opened Results

  /** `char.IsWhiteSpace`: the Unicode White_Space characters
      (space separators, line and paragraph separators, U+0009..U+000D, U+0085). */
  predicate IsWhiteSpace(c: char) {
    || c == ' '
    || ('\t' <= c <= '\r')
    || c == '\U{85}' || c == '\U{A0}' || c == '\U{1680}'
    || ('\U{2000}' <= c <= '\U{200A}')
    || c == '\U{2028}' || c == '\U{2029}' || c == '\U{202F}' || c == '\U{205F}' || c == '\U{3000}'
  }

  /** `string.IsNullOrWhiteSpace` for a non-null string. */
  predicate AllWhiteSpace(s: string) {
    forall k :: 0 <= k < |s| ==> IsWhiteSpace(s[k])
  }

  /** Number of white-space characters at the front of `s`. */
  function LeadingWhiteSpace(s: string): (n: nat)
    ensures n <= |s|
    ensures forall k :: 0 <= k < n ==> IsWhiteSpace(s[k])
    ensures n < |s| ==> !IsWhiteSpace(s[n])
  {
    if |s| > 0 && IsWhiteSpace(s[0]) then 1 + LeadingWhiteSpace(s[1..]) else 0
  }

  /** Number of white-space characters at the back of `s`. */
  function TrailingWhiteSpace(s: string): (n: nat)
    ensures n <= |s|
    ensures forall k :: |s| - n <= k < |s| ==> IsWhiteSpace(s[k])
    ensures n < |s| ==> !IsWhiteSpace(s[|s| - n - 1])
  {
    if |s| > 0 && IsWhiteSpace(s[|s| - 1]) then 1 + TrailingWhiteSpace(s[..|s| - 1]) else 0
  }

  /** `String.Trim()`: `s` without white space at either end. The result is
      the infix of `s` left after removing only white space on both sides,
      and it neither starts nor ends with white space. */
  function Trim(s: string): (r: string)
    ensures |r| <= |s|
    ensures LeadingWhiteSpace(s) + |r| <= |s|
    ensures r == s[LeadingWhiteSpace(s)..LeadingWhiteSpace(s) + |r|]
    ensures forall k :: LeadingWhiteSpace(s) + |r| <= k < |s| ==> IsWhiteSpace(s[k])
    ensures |r| > 0 ==> !IsWhiteSpace(r[0]) && !IsWhiteSpace(r[|r| - 1])
    ensures r == [] <==> AllWhiteSpace(s)
  {
    var i := LeadingWhiteSpace(s);
    var t := s[i..];
    var j := TrailingWhiteSpace(t);
    var r := t[..|t| - j];
    assert r == s[i..i + |r|];
    assert forall k :: i + |r| <= k < |s| ==> s[k] == t[k - i];
    assert forall k :: i <= k < |s| ==> s[k] == t[k - i];
    r
  }

  /** Trimming keeps every non-white-space character of the input, so a
      separator character is in the trimmed text exactly when it is in `s`. */
  lemma TrimKeepsNonWhiteSpace(s: string, c: char)
    requires !IsWhiteSpace(c)
    ensures c in Trim(s) <==> c in s
  {
    var r := Trim(s);
    var i := LeadingWhiteSpace(s);
    if c in s {
      var k :| 0 <= k < |s| && s[k] == c;
      assert r[k - i] == c;
    }
  }

  /** Trimming text that already has no white space at its ends changes nothing. */
  lemma TrimOfTrimmed(s: string)
    requires |s| > 0 ==> !IsWhiteSpace(s[0]) && !IsWhiteSpace(s[|s| - 1])
    ensures Trim(s) == s
  {
  }

  /** Position of the first occurrence of `c` in `s`. */
  function IndexOf(s: string, c: char): (r: Option<nat>)
    ensures r.None? <==> c !in s
    ensures r.Some? ==> r.value < |s| && s[r.value] == c && c !in s[..r.value]
  {
    if |s| == 0 then None
    else if s[0] == c then Some(0)
    else match IndexOf(s[1..], c)
      case None => None
      case Some(k) => assert s[..k + 1] == [s[0]] + s[1..][..k]; Some(k + 1)
  }

  /** `s.Split(new[] { sep }, 2)`: the text before the first `sep` and
      everything after it, or `None` when `sep` does not occur (one part). */
  function SplitFirst(s: string, sep: char): (r: Option<(string, string)>)
    ensures r.None? <==> sep !in s
    ensures r.Some? ==> s == r.value.0 + [sep] + r.value.1 && sep !in r.value.0
  {
    match IndexOf(s, sep)
    case None => None
    case Some(k) =>
      assert s == s[..k] + [sep] + s[k + 1..];
      Some((s[..k], s[k + 1..]))
  }

  /** `s.Substring(0, n)` when `s` is longer than `n`, else `s` itself. */
  function Truncate(s: string, n: nat): (r: string)
    ensures |r| == if |s| <= n then |s| else n
    ensures r <= s
  {
    if |s| <= n then s else s[..n]
  }

  // ---------------------------------------------------------------------
  // Decimal digits

  predicate IsDigit(c: char) { '0' <= c <= '9' }

  predicate AllDigits(s: string) {
    forall k :: 0 <= k < |s| ==> IsDigit(s[k])
  }

  function DigitChar(d: nat): (c: char)
    requires d < 10
    ensures IsDigit(c)
  {
    ('0' as int + d) as char
  }

  function Pow10(n: nat): (p: nat)
    ensures p >= 1
  {
    if n == 0 then 1 else 10 * Pow10(n - 1)
  }

  /** Value of a digit string, most significant digit first. */
  function DigitsValue(s: string): nat
    requires AllDigits(s)
  {
    if |s| == 0 then 0
    else DigitsValue(s[..|s| - 1]) * 10 + (s[|s| - 1] as int - '0' as int)
  }

  /** The `width` low-order decimal digits of `n`, zero-padded on the left
      (the `yyyy`, `MM` and `dd` fields of a date). */
  function FixedDigits(n: nat, width: nat): (s: string)
    ensures |s| == width && AllDigits(s)
  {
    if width == 0 then [] else FixedDigits(n / 10, width - 1) + [DigitChar(n % 10)]
  }

  lemma {:induction false} FixedDigitsValue(n: nat, width: nat)
    requires n < Pow10(width)
    ensures DigitsValue(FixedDigits(n, width)) == n
  {
    if width > 0 {
      var s := FixedDigits(n, width);
      assert s[..|s| - 1] == FixedDigits(n / 10, width - 1);
      FixedDigitsValue(n / 10, width - 1);
    }
  }

  /** Every digit string is the fixed-width rendering of its own value: a
      fixed-width field has exactly one spelling. */
  lemma {:induction false} FixedDigitsOfValue(s: string)
    requires AllDigits(s)
    ensures FixedDigits(DigitsValue(s), |s|) == s
  {
    if |s| > 0 {
      var p := s[..|s| - 1];
      var d := s[|s| - 1] as int - '0' as int;
      assert (DigitsValue(p) * 10 + d) / 10 == DigitsValue(p);
      assert (DigitsValue(p) * 10 + d) % 10 == d;
      FixedDigitsOfValue(p);
    }
  }

  /** Shortest decimal rendering of `n` ("0" for zero). */
  function NatToDigits(n: nat): (s: string)
    ensures |s| > 0 && AllDigits(s)
  {
    if n < 10 then [DigitChar(n)] else NatToDigits(n / 10) + [DigitChar(n % 10)]
  }

  lemma {:induction false} NatToDigitsValue(n: nat)
    ensures DigitsValue(NatToDigits(n)) == n
  {
    if n >= 10 {
      var s := NatToDigits(n);
      assert s[..|s| - 1] == NatToDigits(n / 10);
      NatToDigitsValue(n / 10);
    }
  }

  /** Integer rendering with zero decimal places and an optional leading
      minus sign: what `ToString("F0")` produces for an integral value. */
  function FormatInt(i: int): (s: string)
    ensures |s| > 0
    ensures s[0] == '-' <==> i < 0
    ensures i >= 0 ==> AllDigits(s)
  {
    if i < 0 then "-" + NatToDigits(-i) else NatToDigits(i)
  }

  /** Reads an optionally signed run of decimal digits. */
  function ParseInt(s: string): (r: Option<int>)
    ensures r.Some? ==> |s| > 0
    ensures r.Some? && r.value < 0 ==> s[0] == '-'
    ensures |s| > 0 && AllDigits(s) ==> r.Some? && r.value >= 0
    ensures r.Some? && s[0] != '-' ==> AllDigits(s)
  {
    if |s| > 1 && s[0] == '-' && AllDigits(s[1..]) then var v: int := DigitsValue(s[1..]); Some(-v)
    else if |s| > 0 && AllDigits(s) then Some(DigitsValue(s))
    else None
  }

  /** Reading back a formatted integer returns that integer. */
  lemma FormatIntRoundTrip(i: int)
    ensures ParseInt(FormatInt(i)) == Some(i)
  {
    if i < 0 {
      var s := FormatInt(i);
      assert s[1..] == NatToDigits(-i);
      assert !IsDigit(s[0]);
      NatToDigitsValue(-i);
    } else {
      NatToDigitsValue(i);
    }
  }
}

=== FILE: widget.dfy ===
/** The main window as a whole: construction (loading the configuration),
    `MainWindow_Loaded` (placement, window level and the first midnight schedule),
    `DateCheckTimer_Tick`, and the `OnClosed` teardown. */
module Widget {
  import opened Results
  import opened Calendar
  import opened Announcement
  import opened Config
  import opened Retry
  import opened Midnight
  import Position
  import WindowLevel
  import Debounce

  /** `_targetDate`, `_announcementTitle`, whether the configuration loaded,
      the three shown text fields, and the date timer. */
  datatype Shown = Shown(target: Date, title: string, configOk: bool, display: Display, dateTimer: DateTimer)

  predicate WellFormedFile(file: ConfigFile) {
    file.Present? ==> MaxAttempts <= |file.attempts|
  }

  /** The values `LoadConfiguration` leaves in `_targetDate` and
      `_announcementTitle`: the record on success; otherwise the defaults
      (`DateTime.MinValue`, which a failed `TryParseExact` also stores, and
      the empty title), except that an empty title is found only after the
      date was stored. */
  function FieldsAfterLoad(file: ConfigFile): (f: (Date, string))
    requires WellFormedFile(file)
    ensures ValidDate(f.0)
    ensures ReadConfig(file).Ok? ==> f == (ReadConfig(file).value.target, ReadConfig(file).value.title)
    ensures ReadConfig(file).Err? ==> f.1 == ""
    ensures ReadConfig(file).Err? && ReadConfig(file).error.TitleEmpty? ==> f.0 == ReadConfig(file).error.target
    ensures ReadConfig(file).Err? && !ReadConfig(file).error.TitleEmpty? ==> f.0 == MinDate
  {
    match ReadConfig(file)
    case Ok(c) => (c.target, c.title)
    case Err(TitleEmpty(d)) => (d, "")
    case Err(_) => (MinDate, "")
  }

  /** The constructor: the configuration is loaded and displayed; the date
      timer exists but is not yet armed. */
  function Construct(file: ConfigFile, today: Date): (w: Shown)
    requires WellFormedFile(file) && ValidDate(today)
    ensures ValidDate(w.target)
    ensures w.configOk <==> ReadConfig(file).Ok?
    ensures w.display == ErrorDisplay <==> !w.configOk
    ensures w.configOk ==> w.display == AnnouncementDisplay(w.title, w.target, today)
    ensures w.display == LoadConfiguration(file, today)
    ensures ReadConfig(file).Ok? ==> w.target == ReadConfig(file).value.target
                                     && w.title == ReadConfig(file).value.title
    ensures !w.dateTimer.running
  {
    var f := FieldsAfterLoad(file);
    Shown(f.0, f.1, ReadConfig(file).Ok?, LoadConfiguration(file, today), DateTimer(false, 0))
  }

  // ---------------------------------------------------------------------
  // The midnight tick

  /** `DateCheckTimer_Tick` as written: `UpdateAnnouncementDisplay` runs
      unconditionally, then the timer is re-armed. */
  function DateTickAsWritten(w: Shown, today: Date, now: LocalTime): (r: Shown)
    requires ValidDate(w.target) && ValidDate(today) && ValidTime(now)
    ensures r.display != ErrorDisplay && r.display.title == w.title && r.display.days.Count?
    ensures r.dateTimer.running && 0 < r.dateTimer.intervalMs <= MaxIntervalMs
    ensures now.date != MaxDate ==> InstantMs(now) + r.dateTimer.intervalMs == MidnightMs(NextDay(now.date))
    ensures now.date == MaxDate ==> r.dateTimer.intervalMs == FallbackMs
    ensures r.(display := w.display, dateTimer := w.dateTimer) == w
  {
    w.(display := AnnouncementDisplay(w.title, w.target, today),
       dateTimer := ScheduleNextMidnightUpdate(w.dateTimer, now))
  }

  /** With config.txt missing, the error display is replaced at the first
      midnight by a countdown from 0001/01/01 under an empty title. */
  lemma ErrorDisplayLostAtMidnight(today: Date, now: LocalTime)
    requires ValidDate(today) && today != MinDate && ValidTime(now)
    ensures Construct(Absent, today).display == ErrorDisplay
    ensures var r := DateTickAsWritten(Construct(Absent, today), today, now);
            && r.display != ErrorDisplay
            && r.display.title == ""
            && r.display.days == Count(DayNumber(today))
            && r.display.suffix == SuffixPassed
  {
    DayNumberOrder(MinDate, today);
  }

  /** The corrected tick: the display is recomputed only when the
      configuration loaded, so a configuration error stays on screen; the
      timer is re-armed either way. */
  function DateTick(w: Shown, today: Date, now: LocalTime): (r: Shown)
    requires ValidDate(w.target) && ValidDate(today) && ValidTime(now)
    ensures w.configOk ==> r.display == AnnouncementDisplay(w.title, w.target, today)
    ensures !w.configOk ==> r.display == w.display
    ensures r.dateTimer.running && 0 < r.dateTimer.intervalMs <= MaxIntervalMs
    ensures now.date != MaxDate ==> InstantMs(now) + r.dateTimer.intervalMs == MidnightMs(NextDay(now.date))
    ensures now.date == MaxDate ==> r.dateTimer.intervalMs == FallbackMs
    ensures r.(display := w.display, dateTimer := w.dateTimer) == w
  {
    var shown := if w.configOk then AnnouncementDisplay(w.title, w.target, today) else w.display;
    w.(display := shown, dateTimer := ScheduleNextMidnightUpdate(w.dateTimer, now))
  }

  /** A midnight tick shows exactly what loading the same file on that day
      would show. */
  lemma TickMatchesFreshLoad(file: ConfigFile, day0: Date, today: Date, now: LocalTime)
    requires WellFormedFile(file) && ValidDate(day0) && ValidDate(today) && ValidTime(now)
    ensures DateTick(Construct(file, day0), today, now).display == LoadConfiguration(file, today)
  {
  }

  /** A tick reached from the date `today` and the local time `now`. */
  datatype Tick = Tick(today: Date, now: LocalTime)

  predicate ValidTicks(ticks: seq<Tick>) {
    forall k :: 0 <= k < |ticks| ==> ValidDate(ticks[k].today) && ValidTime(ticks[k].now)
  }

  function RunTicks(w: Shown, ticks: seq<Tick>): Shown
    requires ValidDate(w.target) && ValidTicks(ticks)
    decreases |ticks|
  {
    if |ticks| == 0 then w else RunTicks(DateTick(w, ticks[0].today, ticks[0].now), ticks[1..])
  }

  /** A configuration error stays on screen through any number of midnights,
      and the self-re-arming timer is running after each of them. */
  lemma {:induction false} ErrorDisplayPersists(w: Shown, ticks: seq<Tick>)
    requires ValidDate(w.target) && ValidTicks(ticks)
    requires !w.configOk && w.display == ErrorDisplay
    ensures RunTicks(w, ticks).display == ErrorDisplay
    ensures |ticks| > 0 ==> RunTicks(w, ticks).dateTimer.running
    decreases |ticks|
  {
    if |ticks| > 0 {
      var w1 := DateTick(w, ticks[0].today, ticks[0].now);
      ErrorDisplayPersists(w1, ticks[1..]);
    }
  }

  // ---------------------------------------------------------------------
  // The whole window

  /** The shown state, the window's `Left`/`Top`, and the window-level and
      debounced-save machines. */
  datatype MainWindow = MainWindow(shown: Shown, placement: Position.Placement,
                                   level: WindowLevel.Level, saving: Debounce.Debounce)

  /** `MainWindow_Loaded`: the start-up placement (stored or bottom-right),
      then the window level, then the first midnight schedule. Moving the
      window raises `LocationChanged`, whose handler is subscribed in the
      constructor, so a load that changes `Left`/`Top` leaves a debounced
      save of that very placement pending. */
  function OnLoaded(m: MainWindow, file: Position.PositionFile, width: nat, height: nat,
                    screen: Position.Rect, workArea: Position.Rect,
                    hasHandle: bool, integrated: bool, now: LocalTime): (r: MainWindow)
    requires m.level.mode == WindowLevel.Unintegrated && !m.level.closed && ValidTime(now)
    ensures r.placement == Position.InitialPlacement(file, m.placement, width, height, screen, workArea)
    ensures r.level == WindowLevel.OnLoaded(m.level, hasHandle, integrated)
    ensures r.shown.dateTimer.running && 0 < r.shown.dateTimer.intervalMs <= MaxIntervalMs
    ensures r.shown.dateTimer == ScheduleNextMidnightUpdate(m.shown.dateTimer, now)
    ensures r.shown.(dateTimer := m.shown.dateTimer) == m.shown
    ensures r.placement != m.placement && !m.saving.closed ==> r.saving.pending && r.saving.timerRunning
    ensures r.placement == m.placement ==> r.saving == m.saving
    ensures r.saving.saves == m.saving.saves
  {
    var p := Position.InitialPlacement(file, m.placement, width, height, screen, workArea);
    MainWindow(m.shown.(dateTimer := ScheduleNextMidnightUpdate(m.shown.dateTimer, now)),
               p,
               WindowLevel.Step(m.level, WindowLevel.Loaded(hasHandle, integrated)),
               if p != m.placement then Debounce.Step(m.saving, Debounce.LocationChanged) else m.saving)
  }

  /** `OnClosed`: every timer is stopped, then one final save is made exactly
      when a position change is still pending. */
  function OnClosed(m: MainWindow): (r: MainWindow)
    requires !m.saving.closed && !m.level.closed
    ensures !r.shown.dateTimer.running && !r.level.backstopRunning && !r.saving.timerRunning
    ensures r.saving.saves == if m.saving.pending then m.saving.saves + 1 else m.saving.saves
    ensures r.level.pins == m.level.pins && r.shown.display == m.shown.display
    ensures r.placement == m.placement
  {
    MainWindow(m.shown.(dateTimer := m.shown.dateTimer.(running := false)),
               m.placement,
               WindowLevel.Step(m.level, WindowLevel.Close),
               Debounce.Step(m.saving, Debounce.Close))
  }
}

=== FILE: windowlevel.dfy ===
/** How the widget stays beneath other windows (`MainWindow_Loaded`,
    `MainWindow_Activated`, `WindowLevelCheckTimer_Tick`, `SetWindowToBottom`):
    desktop integration is tried once when the window loads; if it fails,
    the window is pinned to the bottom of the z-order and a 10-second backstop
    timer re-pins it. Activation re-pins in either mode. The outcome of
    desktop integration is an input. */
module WindowLevel {

  datatype Mode = Unintegrated | DesktopChild | BottomPinned

  /** The chosen mode, whether the backstop timer runs, how many
      `SetWindowPos(HWND_BOTTOM, SWP_NOSIZE | SWP_NOMOVE | SWP_NOACTIVATE)`
      calls were made, and whether the window has closed. */
  datatype Level = Level(mode: Mode, backstopRunning: bool, pins: nat, closed: bool)

  const Initial: Level := Level(Unintegrated, false, 0, false)

  /** Events, each with whether the window handle was non-zero when the
      handler looked it up; `integrated` is what `IntegrateWithDesktop` returns. */
  datatype Event =
    | Loaded(hasHandle: bool, integrated: bool)
    | Activated(hasHandle: bool)
    | BackstopTick(hasHandle: bool)
    | Close

  /** `SetWindowToBottom`: one native call, skipped for a zero handle. A
      failed call is only logged, so it changes nothing here. */
  function PinToBottom(s: Level, hasHandle: bool): (r: Level)
    ensures r.pins == if hasHandle then s.pins + 1 else s.pins
    ensures r.(pins := s.pins) == s
  {
    if hasHandle then s.(pins := s.pins + 1) else s
  }

  /** `MainWindow_Loaded`'s window-level part. Integration is attempted only
      with a non-zero handle; the initial pin only after a failed attempt;
      the backstop starts whenever integration did not succeed and is left
      untouched when it did. */
  function OnLoaded(s: Level, hasHandle: bool, integrated: bool): (r: Level)
    requires s.mode == Unintegrated
    ensures r.mode == (if hasHandle && integrated then DesktopChild else BottomPinned)
    ensures !(hasHandle && integrated) ==> r.backstopRunning
    ensures hasHandle && integrated ==> r.backstopRunning == s.backstopRunning
    ensures r.pins == if hasHandle && !integrated then s.pins + 1 else s.pins
  {
    if hasHandle && integrated then s.(mode := DesktopChild)
    else PinToBottom(s, hasHandle).(mode := BottomPinned, backstopRunning := true)
  }

  /** One event. A window raises `Loaded` once, so a repeat is ignored; the
      backstop ticks only while its timer runs; a closed window receives nothing. */
  function Step(s: Level, e: Event): (r: Level)
    ensures s.mode != Unintegrated ==> r.mode == s.mode
    ensures s.closed ==> r == s
    ensures !s.closed && e.Activated? ==> r.pins == if e.hasHandle then s.pins + 1 else s.pins
  {
    if s.closed then s
    else match e
      case Loaded(h, ok) => if s.mode == Unintegrated then OnLoaded(s, h, ok) else s
      case Activated(h) => PinToBottom(s, h)
      case BackstopTick(h) => if s.backstopRunning then PinToBottom(s, h) else s
      case Close => s.(backstopRunning := false, closed := true)
  }

  function Run(s: Level, events: seq<Event>): Level
    decreases |events|
  {
    if |events| == 0 then s else Run(Step(s, events[0]), events[1..])
  }

  /** The backstop runs exactly in bottom-pinned mode while the window is open. */
  predicate Consistent(s: Level) {
    s.backstopRunning <==> (s.mode == BottomPinned && !s.closed)
  }

  /** The outcomes of loading: integration succeeded (no timer, no pin),
      failed (one pin and the timer), or was never tried for want of a
      handle (the timer without a pin). */
  lemma LoadedOutcomes()
    ensures var r := Step(Initial, Loaded(true, true));
            r.mode == DesktopChild && !r.backstopRunning && r.pins == 0
    ensures var r := Step(Initial, Loaded(true, false));
            r.mode == BottomPinned && r.backstopRunning && r.pins == 1
    ensures forall ok :: var r := Step(Initial, Loaded(false, ok));
            r.mode == BottomPinned && r.backstopRunning && r.pins == 0
  {
  }

  lemma StepKeepsConsistent(s: Level, e: Event)
    requires Consistent(s)
    ensures Consistent(Step(s, e))
  {
  }

  /** The mode is chosen once: after loading, no sequence of events changes it,
      so bottom-pinned never becomes desktop-child within a session. */
  lemma {:induction false} ModeIsOneShot(s: Level, events: seq<Event>)
    requires s.mode != Unintegrated
    ensures Run(s, events).mode == s.mode
    decreases |events|
  {
    if |events| > 0 {
      ModeIsOneShot(Step(s, events[0]), events[1..]);
    }
  }

  function CountActivations(events: seq<Event>): nat
    decreases |events|
  {
    if |events| == 0 then 0
    else (if events[0].Activated? then 1 else 0) + CountActivations(events[1..])
  }

  /** After a successful integration the backstop timer never runs, and the
      only pins are those made on activation. */
  lemma {:induction false} DesktopChildNeverStartsBackstop(s: Level, events: seq<Event>)
    requires s.mode == DesktopChild && !s.backstopRunning
    ensures !Run(s, events).backstopRunning
    ensures Run(s, events).pins <= s.pins + CountActivations(events)
    decreases |events|
  {
    if |events| > 0 {
      DesktopChildNeverStartsBackstop(Step(s, events[0]), events[1..]);
    }
  }

  /** In fallback mode every backstop tick with a handle re-pins the window
      until it closes. */
  lemma BackstopRepinsInFallback(s: Level)
    requires Consistent(s) && s.mode == BottomPinned && !s.closed
    ensures Step(s, BackstopTick(true)).pins == s.pins + 1
  {
  }
}
